=== FILE: README.md ===
# Trivia API — a verified model of the service core

This project models the logic of the trivia web service in Dafny (`backend/flaskr/__init__.py`).
The service stores trivia questions and their categories. It lists questions ten to a page,
deletes and creates them, and searches them by a case-insensitive substring. It lists the
questions of one category. In quiz mode it picks a next question that has not been asked yet.

The database is replaced by an in-memory `Store`. The store holds the question rows and the
category rows in storage order, plus the next value of the question table's serial id column.
Each endpoint is a pure function. It takes the application state (`App`: the store plus the
start-up "current category" label) and the request, and returns an answer: `Ok(body)`,
`NotFound` (HTTP 404) or `Unprocessable` (HTTP 422). Endpoints that write to the store also
return the new state (`Served`).

Files, one module each:

- `wrappers.dfy` (`Wrappers`): `Option` and the `Response` answer type.
- `records.dfy` (`Records`): the `Question`, `Category` and `Store` rows. `Valid` holds what the
  model assumes of the database: unique primary keys, which the database guarantees, and every
  stored id below the serial column's next value, which it does not (see "## Left out").
- `query.dfy` (`Query`): the query operations the service uses. `order_by(Question.id)` is a
  functional insertion sort. `filter` is `Filter`. The `one_or_none` lookups are `FindQuestion`
  and `FindCategory`.
- `pagination.dfy` (`Pagination`): `paginate_questions`, with the default page and the window facts.
- `text.dfy` (`Text`): `ILIKE '%term%'` as an ASCII case-folded substring test.
- `quiz.dfy` (`Quiz`): next-question selection, both as a reference function and as the scan loop.
- `flaskr.dfy` (`Flaskr`): the endpoints, request routing, and invariants over request sequences.

The model follows what the code does, including where that differs from what its names suggest:

- The "current category" label is never changed after start-up. Line 18 binds a local name of
  `create_app`, which the listing and search endpoints read through their closure. The assignment
  on line 192 binds a name local to `get_questions_by_category`. So listing and search always
  report the type of the first category row. Only the category endpoint's own answer carries that
  category's type. The upper-case name suggests that a category query overwrites the shared
  label, but no code path does.
- Listing and search are in id order (`order_by(Question.id)`).
- `create_app` fails when the category table is empty, because `Category.query.first()` is `None`.
  `CreateApp` returns `None` in that case.

Inputs that stand for what the service cannot compute itself:

- `shuffled`: the store's random ordering (`order_by(func.random())`). Properties about the
  store assume that it is a permutation of the question rows.
- `outcome`: how the store answers an insert. A row may be inserted, rejected before the INSERT
  reaches the database, or rejected by the database after the serial column has handed out its
  value (a serial value is never given back). Which rows are rejected depends on column
  constraints declared in `models.py`, and `models.py` is not part of this model.

## Model

| member | source | states |
|---|---|---|
| Query.SortById | backend/flaskr/__init__.py:79 | `order_by(Question.id)` returns the same rows (as a multiset) ascending by id |
| Query.FilterKeepsSorted | backend/flaskr/__init__.py:162 | filtering a listing already ordered by id keeps it ordered, as `order_by(...).filter(...)` does |
| Query.Filter | backend/flaskr/__init__.py:190 | a filtered query returns exactly the rows that satisfy the condition, each as many times as the table holds it |
| Query.FilterKeepsOrder | backend/flaskr/__init__.py:190 | filtering keeps the table order: filtering two consecutive stretches and joining them equals filtering the joined stretches |
| Query.AppendLargestSorted | backend/flaskr/__init__.py:150-151 | a row inserted with an id larger than every other id comes last in id order |
| Query.FindQuestion | backend/flaskr/__init__.py:104 | the lookup by id finds nothing exactly when no question has the id; a hit is a row with that id |
| Query.FindCategory | backend/flaskr/__init__.py:184 | the lookup by id finds nothing exactly when no category has the id; a hit is a category with that id |
| Pagination.RequestedPage | backend/flaskr/__init__.py:39 | the page is the `page` query argument, or 1 when the argument is absent |
| Pagination.DefaultPageIsFirst | backend/flaskr/__init__.py:39-44 | without a page argument the first ten rows of the listing are served |
| Pagination.Paginate | backend/flaskr/__init__.py:38-46 | a page has at most 10 rows; row k of page p is row (p-1)*10+k of the listing; the page is empty exactly when the listing has at most (p-1)*10 rows |
| Pagination.ItemOnItsPage | backend/flaskr/__init__.py:40-44 | row i of a listing appears on page i/10+1 at offset i mod 10 |
| Pagination.PageRowsFromListing | backend/flaskr/__init__.py:44 | every row of a page is a row of the listing |
| Pagination.PagesDisjoint | backend/flaskr/__init__.py:40-44 | two different pages of a listing without repeated rows have no row in common |
| Pagination.FirstPagesArePrefix | backend/flaskr/__init__.py:40-44 | pages 1 to k, concatenated in order, are exactly the first min(10k, n) rows of the listing |
| Text.Lower | backend/flaskr/__init__.py:162 | ASCII case folding keeps the length and lower-cases each character in place |
| Text.OccursIff | backend/flaskr/__init__.py:162 | the executable substring test holds exactly when the term occurs at some position of the text |
| Text.ContainsIgnoringCase | backend/flaskr/__init__.py:162 | `ILIKE '%term%'` holds exactly when the lower-cased term occurs at some position of the lower-cased question text |
| Text.MatchIgnoresCase | backend/flaskr/__init__.py:162 | the match result does not depend on the letter case of the text or of the term |
| Text.EmptyTermMatchesAll | backend/flaskr/__init__.py:162 | an empty search term (pattern `%%`) matches every question |
| Quiz.Candidates | backend/flaskr/__init__.py:223-242 | the quiz draws from the shuffled rows of the requested category, or from all of them when the category id is 0 |
| Quiz.LastUnseen | backend/flaskr/__init__.py:229-235 | no question is found exactly when every candidate was asked before; a found question is at a position with no unasked candidate after it |
| Quiz.ScanForUnseen | backend/flaskr/__init__.py:244-248 | the loop that overwrites its choice on every unasked row ends with the last unasked candidate, or with none when all were asked |
| Quiz.NextQuestion | backend/flaskr/__init__.py:223-248 | the result is none or a candidate; with no previous questions it is the first candidate (none only when there are none); otherwise it is none exactly when every candidate was asked, and it is never a repeat |
| Quiz.SelectByScan | backend/flaskr/__init__.py:220-248 | the four branches (all categories or one, first question or not) select what the reference selection selects |
| Quiz.QuizDrawsFromStore | backend/flaskr/__init__.py:237-248 | under a random ordering that permutes the table, a selected question is a stored question of the requested category |
| Quiz.FirstQuestionOfAnyCategory | backend/flaskr/__init__.py:223-226 | the first question of an all-categories quiz exists exactly when the store has a question |
| Quiz.ExhaustedCategoryGivesNothing | backend/flaskr/__init__.py:241-248 | once every question of the category has been asked, the quiz returns no question |
| Flaskr.CreateApp | backend/flaskr/__init__.py:18 | start-up fails on an empty category table; otherwise the label is the type of the first category row |
| Flaskr.CategoryMap | backend/flaskr/__init__.py:60 | the map's keys are the category ids, and each id maps to the type of the last row carrying it |
| Flaskr.CategoryMapOfDistinct | backend/flaskr/__init__.py:56-60 | with unique category ids, every category id maps to that category's type |
| Flaskr.GetCategories | backend/flaskr/__init__.py:55-61 | always succeeds, with the id-to-type map of all categories |
| Flaskr.ListQuestions | backend/flaskr/__init__.py:77-92 | answers 404 exactly when the requested page is empty; on success it gives a 1-10 row page in id order of stored rows, the total of all questions, the category map and the start-up label |
| Flaskr.PageOfListing | backend/flaskr/__init__.py:79-81 | a page of the id-ordered listing is ordered by id and contains only stored rows |
| Flaskr.DeleteQuestion | backend/flaskr/__init__.py:103-114 | an absent id answers 404 and changes nothing; a present id removes one row with that id, keeps the others in order, and answers with the deleted id |
| Flaskr.RemoveAtUnique | backend/flaskr/__init__.py:109 | with unique ids, removing one row removes exactly the rows with its id and keeps the ids unique |
| Flaskr.DeleteRemovesOnlyThatRow | backend/flaskr/__init__.py:104-109 | in a valid store a delete keeps the store valid and removes exactly the question with that id |
| Flaskr.SecondDeleteNotFound | backend/flaskr/__init__.py:104-107 | deleting the same id a second time answers 404 |
| Flaskr.DeletedQuestionNotListed | backend/flaskr/__init__.py:109 | after a delete, no page of the listing shows a question with the deleted id |
| Flaskr.CreateQuestion | backend/flaskr/__init__.py:148-159 | any rejection answers 422 and leaves the rows unchanged, and the serial column never moves back; an inserted row is appended with the serial column's next id, which is returned |
| Flaskr.CreatedQuestionOnLastPage | backend/flaskr/__init__.py:122-156 | after a create the store stays valid and the new question is the last row of page n/10+1, and the page after it is empty (404), so it sits at the end of the last page |
| Flaskr.CreateKeepsValid | backend/flaskr/__init__.py:150-151 | whatever the store answers to an insert, a valid store stays valid |
| Flaskr.DeleteKeepsValid | backend/flaskr/__init__.py:109 | a delete keeps a valid store valid |
| Flaskr.SearchMatches | backend/flaskr/__init__.py:162 | the matches are exactly the stored questions whose text contains the term ignoring case, each as often as stored, in id order |
| Flaskr.SearchQuestions | backend/flaskr/__init__.py:161-170 | search never fails; it gives the requested page of the id-ordered matches (at most 10 matching stored questions), the total of ALL questions and the start-up label |
| Flaskr.SearchFindsEveryMatch | backend/flaskr/__init__.py:162-166 | every matching question appears on some page of the search |
| Flaskr.QuestionsByCategory | backend/flaskr/__init__.py:182-198 | answers 404 exactly when no category has the id; on success the questions are the requested page of that category's questions, each a stored question of the category, the total counts all questions, and the label is a type of a category with that id |
| Flaskr.CategoryLabelIsThatCategory | backend/flaskr/__init__.py:184-192 | with unique category ids, the label is the type of the one category with the id |
| Flaskr.CategoryListingFindsEveryQuestion | backend/flaskr/__init__.py:190-195 | every stored question of the category appears on some page |
| Flaskr.PlayQuiz | backend/flaskr/__init__.py:250-253 | the quiz always answers success, even with no question; the question is the selection and, under a permuting ordering, a stored question |
| Flaskr.Serve | backend/flaskr/__init__.py:141-148 | routing by presence of a search term; a negative id in a delete or category path is answered 404 by routing, since the `<int:...>` converters of lines 101 and 180 do not match it; no request changes the label or the categories; only delete and create change the store; validity is kept |
| Flaskr.RunKeepsLabelAndValidity | backend/flaskr/__init__.py:192 | across any sequence of requests the label and the categories never change and the store stays valid |
| Flaskr.ListingKeepsStartupLabel | backend/flaskr/__init__.py:86-92 | after any requests, the listing reports the type of the first category row |

## Left out

- Path ids are non-negative when they reach a handler: the `<int:...>` converters (lines 101 and
  180) do not match a negative id, which routing answers with 404. `Serve` answers 404 for those
  requests; `DeleteQuestion` and `QuestionsByCategory` themselves accept any integer id.
- Valid: assumes every stored question id is below the serial column's next value. That holds when
  every row took its id from the serial column, or the column was advanced past the ids of rows
  seeded with explicit ids. The database does not enforce it; without it a created question can
  sort before a seeded one, and `CreatedQuestionOnLastPage` does not hold.
- Flask routing, JSON encoding, CORS, the `after_request` headers and the error handlers' response
  bodies (lines 23-33 and 260-294) are I/O plumbing. Errors are the `Response` constructors; the
  400 and 500 handlers have no path that reaches them here.
- SQLAlchemy is not modelled; the store is sequences. Which permutation `func.random()` produces
  is not modelled: it is the input `shuffled`, and each request supplies its own.
- The conditions under which an insert fails (line 158) depend on `models.py`, which is not part of
  this model; the store's answer is the input `outcome`.
- Page numbers of 0 or below are excluded by `PageArgOk`, because Python's negative slicing gives
  windows the service never meant. A page argument that is not an integer is read by Flask as the
  default page; the model takes the page as `Option<int>` with `None` meaning page 1.
- `ILIKE` wildcard characters (`%`, `_`) and the escape character `\` inside a search term, and
  case folding beyond ASCII, are not modelled; the match is a plain substring test on
  ASCII-lower-cased text. (A term ending in `\` escapes the final `%` of the pattern.)
- `question.format()` lives in `models.py`, which is not part of this model; a returned question
  is the row itself.
- `one_or_none()` raises when two rows share an id; primary keys rule that out, and the model takes
  the first row with the id.
- The category endpoint's filter (line 190) has no `order_by`, so the database fixes no order; the
  model takes the rows in storage order.
- `Category.query.first()` has no `order_by`; the model takes the first row in storage order.
- The category map is built from rows ordered by id; with unique ids the map does not depend on
  the order, so `CategoryMap` reads the rows in storage order.
- Create and search bodies are well-typed: an absent create field (read as `None` on lines 143-146
  and stored as NULL unless a `models.py` constraint rejects it) and a `searchTerm` that is not a
  string (formatted into the pattern by line 162) are not modelled; `NewQuestion` carries a value
  in every field and the search term is a string.
- Malformed quiz bodies are not modelled: the quiz category is an `int` and `previous_questions`
  is a sequence of ints.
- Difficulty range and the category reference of a question are not checked by the service and
  are not modelled as constraints.
- SortById: orders ascending without tie-breaking; ties cannot occur in a valid store, so
  "ascending" in the contracts is non-strict.

=== FILE: flaskr.dfy ===
/** The trivia service's endpoints over an in-memory store. Each endpoint is a pure
    function of the application state and the request; the ones that write to the
    store also return the new state. */
module Flaskr {
  import opened Wrappers
  import opened Records
  import opened Query
  import opened Pagination
  import opened Text
  import opened Quiz

  /** The application: the database, and the `CURRENT_CATEGORY` value that `create_app`
      binds once at start-up and that the listing and search endpoints read. */
  datatype App = App(store: Store, currentCategory: string)

  /** The JSON bodies the endpoints answer with, one constructor per endpoint. */
  datatype Body =
    | Categories(success: bool, categories: map<int, string>)
    | Listing(questions: seq<Question>, totalQuestions: nat, categories: map<int, string>,
              currentCategory: string, success: bool)
    | Deleted(success: bool, deleted: int)
    | Created(success: bool, created: int)
    | SearchResults(questions: seq<Question>, totalQuestions: nat, currentCategory: string, success: bool)
    | CategoryQuestions(questions: seq<Question>, totalQuestions: nat, currentCategory: string)
    | QuizQuestion(question: Option<Question>, success: bool)

  /** The state after a request, together with the answer to it. */
  datatype Served = Served(app: App, response: Response<Body>)

  /** The fields of a create request. */
  datatype NewQuestion = NewQuestion(text: string, answer: string, difficulty: int, category: int)

  /** `create_app`: `Category.query.first().type` fails on an empty category table. */
  function CreateApp(store: Store): (r: Option<App>)
    ensures r.None? <==> |store.categories| == 0
    ensures r.Some? ==> r.value.store == store && r.value.currentCategory == store.categories[0].name
  {
    if |store.categories| == 0 then None else Some(App(store, store.categories[0].name))
  }

  /** Category row `i` is the last one carrying its id, so a dict comprehension keeps it. */
  predicate LastWithId(cs: seq<Category>, i: int)
  {
    0 <= i < |cs| && forall j :: i < j < |cs| ==> cs[j].id != cs[i].id
  }

  /** `{category.id: category.type for category in categories}`. */
  function CategoryMap(cs: seq<Category>): (m: map<int, string>)
    ensures m.Keys == CategoryIds(cs)
    ensures forall i :: LastWithId(cs, i) ==> cs[i].id in m && m[cs[i].id] == cs[i].name
  {
    if |cs| == 0 then map[]
    else
      var n := |cs| - 1;
      var init := cs[..n];
      assert cs == init + [cs[n]];
      assert forall i :: LastWithId(cs, i) && i < n ==> LastWithId(init, i);
      CategoryMap(init)[cs[n].id := cs[n].name]
  }

  /** With unique category ids, the map sends every category's id to its type. */
  lemma CategoryMapOfDistinct(cs: seq<Category>)
    requires DistinctCategoryIds(cs)
    ensures forall c :: c in cs ==> c.id in CategoryMap(cs) && CategoryMap(cs)[c.id] == c.name
  {
    forall c | c in cs
      ensures c.id in CategoryMap(cs) && CategoryMap(cs)[c.id] == c.name
    {
      var i :| 0 <= i < |cs| && cs[i] == c;
      assert LastWithId(cs, i);
    }
  }

  /** GET /categories: always succeeds with the id-to-type map of every category. */
  function GetCategories(app: App): (r: Response<Body>)
    ensures r.Ok? && r.body.Categories? && r.body.success
    ensures r.body.categories.Keys == CategoryIds(app.store.categories)
    ensures forall i :: LastWithId(app.store.categories, i) ==>
              r.body.categories[app.store.categories[i].id] == app.store.categories[i].name
  {
    Ok(Categories(true, CategoryMap(app.store.categories)))
  }

  /** GET /questions?page=N: one page of all questions in id order; 404 on an empty page. */
  function ListQuestions(app: App, pageArg: Option<int>): (r: Response<Body>)
    requires PageArgOk(pageArg)
    ensures r.Ok? || r.NotFound?
    ensures r.NotFound? <==> |app.store.questions| <= PageStart(RequestedPage(pageArg))
    ensures r.Ok? ==> r.body.Listing? && r.body.success
    ensures r.Ok? ==> r.body.totalQuestions == |app.store.questions|
    ensures r.Ok? ==> r.body.currentCategory == app.currentCategory
    ensures r.Ok? ==> r.body.categories == CategoryMap(app.store.categories)
    ensures r.Ok? ==> 0 < |r.body.questions| <= QuestionsPerPage
    ensures r.Ok? ==> SortedById(r.body.questions)
    ensures r.Ok? ==> forall q :: q in r.body.questions ==> q in app.store.questions
    ensures r.Ok? ==> r.body.questions == Paginate(SortById(app.store.questions), RequestedPage(pageArg))
  {
    var qs := app.store.questions;
    var ordered := SortById(qs);
    var page := Paginate(ordered, RequestedPage(pageArg));
    if |page| == 0 then NotFound
    else
      PageOfListing(qs, ordered, RequestedPage(pageArg));
      Ok(Listing(page, |qs|, CategoryMap(app.store.categories), app.currentCategory, true))
  }

  /** A page of an ordered listing is ordered, and holds rows of the store only. */
  lemma PageOfListing(qs: seq<Question>, ordered: seq<Question>, page: int)
    requires page >= 1
    requires SortedById(ordered) && multiset(ordered) == multiset(qs)
    ensures SortedById(Paginate(ordered, page))
    ensures forall q :: q in Paginate(ordered, page) ==> q in qs
  {
    forall q | q in Paginate(ordered, page)
      ensures q in qs
    {
      PageRowsFromListing(ordered, page, q);
      assert q in multiset(ordered);
    }
  }

  /** DELETE /questions/<id>: 404 when no row has the id; otherwise that row is removed. */
  function DeleteQuestion(app: App, id: int): (r: Served)
    ensures id !in QuestionIds(app.store.questions) ==> r.response == NotFound && r.app == app
    ensures id in QuestionIds(app.store.questions) ==>
              && r.response == Ok(Deleted(true, id))
              && r.app.currentCategory == app.currentCategory
              && r.app.store.categories == app.store.categories
              && r.app.store.nextId == app.store.nextId
              && |r.app.store.questions| == |app.store.questions| - 1
              && exists k :: 0 <= k < |app.store.questions| && app.store.questions[k].id == id &&
                             r.app.store.questions == app.store.questions[..k] + app.store.questions[k + 1..]
  {
    var qs := app.store.questions;
    match FindQuestion(qs, id)
    case None => Served(app, NotFound)
    case Some(k) =>
      Served(app.(store := app.store.(questions := qs[..k] + qs[k + 1..])), Ok(Deleted(true, id)))
  }

  /** Removing position `k` from rows with unique ids removes exactly the rows with that id. */
  lemma RemoveAtUnique(qs: seq<Question>, k: int)
    requires DistinctQuestionIds(qs)
    requires 0 <= k < |qs|
    ensures DistinctQuestionIds(qs[..k] + qs[k + 1..])
    ensures forall q :: q in qs[..k] + qs[k + 1..] <==> q in qs && q.id != qs[k].id
  {
    var rest := qs[..k] + qs[k + 1..];
    assert forall j :: 0 <= j < |rest| ==> rest[j] == qs[if j < k then j else j + 1];
    forall q | q in qs && q.id != qs[k].id
      ensures q in rest
    {
      var j :| 0 <= j < |qs| && qs[j] == q;
      if j < k { assert rest[j] == q; } else { assert rest[j - 1] == q; }
    }
  }

  /** In a valid store a delete removes exactly the row with that id and keeps the store valid. */
  lemma DeleteRemovesOnlyThatRow(app: App, id: int)
    requires Valid(app.store)
    requires id in QuestionIds(app.store.questions)
    ensures var after := DeleteQuestion(app, id).app.store;
            && Valid(after)
            && id !in QuestionIds(after.questions)
            && forall q :: q in after.questions <==> q in app.store.questions && q.id != id
  {
    var qs := app.store.questions;
    var k := FindQuestion(qs, id).value;
    RemoveAtUnique(qs, k);
  }

  /** A delete keeps a valid store valid. */
  lemma DeleteKeepsValid(app: App, id: int)
    ensures Valid(app.store) ==> Valid(DeleteQuestion(app, id).app.store)
  {
    if Valid(app.store) && id in QuestionIds(app.store.questions) {
      DeleteRemovesOnlyThatRow(app, id);
    }
  }

  /** Deleting the same id twice: the second delete answers 404. */
  lemma SecondDeleteNotFound(app: App, id: int)
    requires Valid(app.store)
    ensures DeleteQuestion(DeleteQuestion(app, id).app, id).response == NotFound
  {
    if id in QuestionIds(app.store.questions) {
      DeleteRemovesOnlyThatRow(app, id);
    }
  }

  /** After a delete no page of the listing shows a question with that id. */
  lemma DeletedQuestionNotListed(app: App, id: int, pageArg: Option<int>)
    requires Valid(app.store)
    requires PageArgOk(pageArg)
    ensures var r := ListQuestions(DeleteQuestion(app, id).app, pageArg);
            r.Ok? ==> forall q :: q in r.body.questions ==> q.id != id
  {
    if id in QuestionIds(app.store.questions) {
      DeleteRemovesOnlyThatRow(app, id);
    }
  }

  /** How the store answers an insert. The conditions under which a row is rejected are
      column constraints outside this model, so the outcome is an input. A row the database
      itself rejects has already drawn a value from the serial column, which is not given back. */
  datatype InsertOutcome = Inserted | RejectedBeforeInsert | RejectedByDatabase

  /** POST /questions without a search term: an inserted row gets the serial column's next
      id; any rejection answers 422 and leaves the rows as they were. */
  function CreateQuestion(app: App, fields: NewQuestion, outcome: InsertOutcome): (r: Served)
    ensures !outcome.Inserted? ==> && r.response == Unprocessable
                                   && r.app.currentCategory == app.currentCategory
                                   && r.app.store.questions == app.store.questions
                                   && r.app.store.categories == app.store.categories
                                   && r.app.store.nextId >= app.store.nextId
    ensures outcome.RejectedBeforeInsert? ==> r.app == app
    ensures outcome.Inserted? ==> && r.response == Ok(Created(true, app.store.nextId))
                                  && r.app.currentCategory == app.currentCategory
                                  && r.app.store.categories == app.store.categories
                                  && r.app.store.nextId > app.store.nextId
                                  && |r.app.store.questions| == |app.store.questions| + 1
                                  && r.app.store.questions[..|app.store.questions|] == app.store.questions
                                  && Last(r.app.store.questions) ==
                                       Question(app.store.nextId, fields.text, fields.answer, fields.category, fields.difficulty)
  {
    var s := app.store;
    match outcome
    case RejectedBeforeInsert => Served(app, Unprocessable)
    case RejectedByDatabase => Served(app.(store := s.(nextId := s.nextId + 1)), Unprocessable)
    case Inserted =>
      var q := Question(s.nextId, fields.text, fields.answer, fields.category, fields.difficulty);
      Served(app.(store := s.(questions := s.questions + [q], nextId := s.nextId + 1)), Ok(Created(true, s.nextId)))
  }

  function Last(qs: seq<Question>): Question
    requires |qs| > 0
  {
    qs[|qs| - 1]
  }

  /** A created question keeps the store valid and appears at the end of the last page of
      the listing: its page is served, the page after it is empty, and it ends its page. */
  lemma CreatedQuestionOnLastPage(app: App, fields: NewQuestion)
    requires Valid(app.store)
    ensures var after := CreateQuestion(app, fields, Inserted).app;
            var page := |app.store.questions| / QuestionsPerPage + 1;
            && Valid(after.store)
            && ListQuestions(after, Some(page)).Ok?
            && Last(after.store.questions) in ListQuestions(after, Some(page)).body.questions
            && Last(ListQuestions(after, Some(page)).body.questions) == Last(after.store.questions)
            && ListQuestions(after, Some(page + 1)).NotFound?
  {
    var qs := app.store.questions;
    var after := CreateQuestion(app, fields, Inserted).app;
    var q := Last(after.store.questions);
    assert after.store.questions == qs + [q];
    AppendLargestSorted(qs, q);
    var ordered := SortById(after.store.questions);
    assert ordered[|qs|] == q;
    ItemOnItsPage(ordered, |qs|);
  }

  /** Whatever the store answers to an insert, a valid store stays valid. */
  lemma CreateKeepsValid(app: App, fields: NewQuestion, outcome: InsertOutcome)
    ensures Valid(app.store) ==> Valid(CreateQuestion(app, fields, outcome).app.store)
  {
    if Valid(app.store) && outcome.Inserted? {
      CreatedQuestionOnLastPage(app, fields);
    }
  }

  /** The questions whose text contains the term, ignoring case, in id order. */
  function SearchMatches(qs: seq<Question>, term: string): (r: seq<Question>)
    ensures SortedById(r)
    ensures forall q :: q in r <==> q in qs && ContainsIgnoringCase(q.text, term)
    ensures forall q :: multiset(r)[q] == if ContainsIgnoringCase(q.text, term) then multiset(qs)[q] else 0
  {
    var ordered := SortById(qs);
    var keep := (q: Question) => ContainsIgnoringCase(q.text, term);
    FilterKeepsSorted(ordered, keep);
    assert forall q :: q in ordered <==> q in multiset(qs);
    Filter(ordered, keep)
  }

  /** POST /questions with a search term: one page of the matches; never an error.
      `total_questions` counts every question, matched or not. */
  function SearchQuestions(app: App, term: string, pageArg: Option<int>): (r: Response<Body>)
    requires PageArgOk(pageArg)
    ensures r.Ok? && r.body.SearchResults? && r.body.success
    ensures r.body.totalQuestions == |app.store.questions|
    ensures r.body.currentCategory == app.currentCategory
    ensures |r.body.questions| <= QuestionsPerPage
    ensures SortedById(r.body.questions)
    ensures forall q :: q in r.body.questions ==> q in app.store.questions && ContainsIgnoringCase(q.text, term)
    ensures r.body.questions == Paginate(SearchMatches(app.store.questions, term), RequestedPage(pageArg))
  {
    var matches := SearchMatches(app.store.questions, term);
    var page := Paginate(matches, RequestedPage(pageArg));
    assert forall q :: q in page ==> q in matches by {
      forall q | q in page
        ensures q in matches
      {
        PageRowsFromListing(matches, RequestedPage(pageArg), q);
      }
    }
    Ok(SearchResults(page, |app.store.questions|, app.currentCategory, true))
  }

  /** Every matching question turns up on some page of the search. */
  lemma SearchFindsEveryMatch(app: App, term: string, q: Question)
    requires q in app.store.questions && ContainsIgnoringCase(q.text, term)
    ensures exists page :: page >= 1 && q in SearchQuestions(app, term, Some(page)).body.questions
  {
    var matches := SearchMatches(app.store.questions, term);
    var i :| 0 <= i < |matches| && matches[i] == q;
    ItemOnItsPage(matches, i);
    var page := i / QuestionsPerPage + 1;
    assert q in SearchQuestions(app, term, Some(page)).body.questions;
  }

  /** GET /categories/<id>/questions: 404 for an unknown category, otherwise one page of
      that category's questions, labelled with the category's type. */
  function QuestionsByCategory(app: App, categoryId: int, pageArg: Option<int>): (r: Response<Body>)
    requires PageArgOk(pageArg)
    ensures r.Ok? || r.NotFound?
    ensures r.NotFound? <==> categoryId !in CategoryIds(app.store.categories)
    ensures r.Ok? ==> r.body.CategoryQuestions?
    ensures r.Ok? ==> r.body.totalQuestions == |app.store.questions|
    ensures r.Ok? ==> exists c :: c in app.store.categories && c.id == categoryId && r.body.currentCategory == c.name
    ensures r.Ok? ==> |r.body.questions| <= QuestionsPerPage
    ensures r.Ok? ==> forall q :: q in r.body.questions ==> q in app.store.questions && q.category == categoryId
    ensures r.Ok? ==>
              r.body.questions == Paginate(Filter(app.store.questions, (q: Question) => q.category == categoryId),
                                           RequestedPage(pageArg))
  {
    match FindCategory(app.store.categories, categoryId)
    case None => NotFound
    case Some(c) =>
      var inCategory := Filter(app.store.questions, (q: Question) => q.category == categoryId);
      var page := Paginate(inCategory, RequestedPage(pageArg));
      assert forall q :: q in page ==> q in inCategory by {
        forall q | q in page
          ensures q in inCategory
        {
          PageRowsFromListing(inCategory, RequestedPage(pageArg), q);
        }
      }
      Ok(CategoryQuestions(page, |app.store.questions|, c.name))
  }

  /** With unique category ids the label is that of the one category with the id. */
  lemma CategoryLabelIsThatCategory(app: App, categoryId: int, pageArg: Option<int>, c: Category)
    requires PageArgOk(pageArg)
    requires DistinctCategoryIds(app.store.categories)
    requires c in app.store.categories && c.id == categoryId
    ensures QuestionsByCategory(app, categoryId, pageArg).Ok?
    ensures QuestionsByCategory(app, categoryId, pageArg).body.currentCategory == c.name
  {
    var cs := app.store.categories;
    var r := QuestionsByCategory(app, categoryId, pageArg);
    var d :| d in cs && d.id == categoryId && r.body.currentCategory == d.name;
    var i :| 0 <= i < |cs| && cs[i] == c;
    var j :| 0 <= j < |cs| && cs[j] == d;
    assert i == j;
  }

  /** Every question of the category turns up on some page. */
  lemma CategoryListingFindsEveryQuestion(app: App, categoryId: int, q: Question)
    requires categoryId in CategoryIds(app.store.categories)
    requires q in app.store.questions && q.category == categoryId
    ensures exists page :: page >= 1 && q in QuestionsByCategory(app, categoryId, Some(page)).body.questions
  {
    var inCategory := Filter(app.store.questions, (q: Question) => q.category == categoryId);
    var i :| 0 <= i < |inCategory| && inCategory[i] == q;
    ItemOnItsPage(inCategory, i);
    var page := i / QuestionsPerPage + 1;
    assert q in QuestionsByCategory(app, categoryId, Some(page)).body.questions;
  }

  /** POST /quizzes: always answers success, with the selected question or none.
      `shuffled` is the store's random ordering of the question table. */
  function PlayQuiz(app: App, previous: seq<int>, quizCategory: int, shuffled: seq<Question>): (r: Response<Body>)
    ensures r.Ok? && r.body.QuizQuestion? && r.body.success
    ensures r.body.question == NextQuestion(shuffled, quizCategory, previous)
    ensures IsPermutation(shuffled, app.store.questions) && r.body.question.Some? ==>
              r.body.question.value in app.store.questions
    ensures |previous| > 0 && r.body.question.Some? ==> r.body.question.value.id !in previous
  {
    QuizDrawsFromStore(app.store.questions, shuffled, quizCategory, previous);
    Ok(QuizQuestion(NextQuestion(shuffled, quizCategory, previous), true))
  }

  /** One HTTP request to the service. A quiz request carries the store's random ordering;
      a create request carries the store's answer to the insert. */
  datatype Request =
    | GetCategoriesRequest
    | GetQuestionsRequest(page: Option<int>)
    | DeleteQuestionRequest(questionId: int)
    | PostQuestionsRequest(searchTerm: Option<string>, fields: NewQuestion, page: Option<int>, outcome: InsertOutcome)
    | GetCategoryQuestionsRequest(categoryId: int, page: Option<int>)
    | PostQuizzesRequest(previousQuestions: seq<int>, quizCategory: int, shuffled: seq<Question>)

  /** Requests that paginate name a page of at least 1. */
  predicate WellFormed(req: Request)
  {
    match req
    case GetQuestionsRequest(page) => PageArgOk(page)
    case PostQuestionsRequest(term, _, page, _) => term.Some? ==> PageArgOk(page)
    case GetCategoryQuestionsRequest(_, page) => PageArgOk(page)
    case _ => true
  }

  /** Routes a request. The `<int:...>` path converters match no negative id, so such a
      delete or category request is answered 404 by routing, whatever the store holds.
      POST /questions is a search when the body has a search term (even an empty one) and a
      create otherwise. The category endpoint's assignment to
      `CURRENT_CATEGORY` binds a local name, so no endpoint changes the start-up label. */
  function Serve(app: App, req: Request): (r: Served)
    requires WellFormed(req)
    ensures r.app.currentCategory == app.currentCategory
    ensures r.app.store.categories == app.store.categories
    ensures Valid(app.store) ==> Valid(r.app.store)
    ensures !(req.DeleteQuestionRequest? || req.PostQuestionsRequest?) ==> r.app == app
    ensures req.PostQuestionsRequest? && req.searchTerm.Some? ==> r.app == app
    ensures req.DeleteQuestionRequest? && req.questionId < 0 ==> r.response == NotFound && r.app == app
    ensures req.GetCategoryQuestionsRequest? && req.categoryId < 0 ==> r.response == NotFound
  {
    match req
    case GetCategoriesRequest => Served(app, GetCategories(app))
    case GetQuestionsRequest(page) => Served(app, ListQuestions(app, page))
    case DeleteQuestionRequest(id) =>
      if id < 0 then Served(app, NotFound)
      else
        DeleteKeepsValid(app, id);
        DeleteQuestion(app, id)
    case PostQuestionsRequest(term, fields, page, outcome) =>
      if term.Some? then Served(app, SearchQuestions(app, term.value, page))
      else
        CreateKeepsValid(app, fields, outcome);
        CreateQuestion(app, fields, outcome)
    case GetCategoryQuestionsRequest(id, page) =>
      if id < 0 then Served(app, NotFound) else Served(app, QuestionsByCategory(app, id, page))
    case PostQuizzesRequest(previous, category, shuffled) =>
      Served(app, PlayQuiz(app, previous, category, shuffled))
  }

  /** The state after serving a sequence of requests in order. */
  function Run(app: App, reqs: seq<Request>): App
    requires forall req :: req in reqs ==> WellFormed(req)
    decreases |reqs|
  {
    if |reqs| == 0 then app else Run(Serve(app, reqs[0]).app, reqs[1..])
  }

  /** The label that listing and search report never changes after start-up, and the store
      stays valid, whatever requests are served. */
  lemma {:induction false} RunKeepsLabelAndValidity(app: App, reqs: seq<Request>)
    requires forall req :: req in reqs ==> WellFormed(req)
    ensures Run(app, reqs).currentCategory == app.currentCategory
    ensures Run(app, reqs).store.categories == app.store.categories
    ensures Valid(app.store) ==> Valid(Run(app, reqs).store)
    decreases |reqs|
  {
    if |reqs| > 0 {
      RunKeepsLabelAndValidity(Serve(app, reqs[0]).app, reqs[1..]);
    }
  }

  /** Listing after any requests reports the type of the first category row, even after a
      category query for a different category. */
  lemma ListingKeepsStartupLabel(store: Store, reqs: seq<Request>, pageArg: Option<int>)
    requires |store.categories| > 0
    requires forall req :: req in reqs ==> WellFormed(req)
    requires PageArgOk(pageArg)
    ensures var r := ListQuestions(Run(CreateApp(store).value, reqs), pageArg);
            r.Ok? ==> r.body.currentCategory == store.categories[0].name
  {
    RunKeepsLabelAndValidity(CreateApp(store).value, reqs);
  }
}

=== FILE: pagination.dfy ===
/** `paginate_questions`: a fixed window of ten rows cut out of an ordered listing. */
module Pagination {
  import opened Wrappers

  const QuestionsPerPage: nat := 10

  function Min(a: int, b: int): int
  {
    if a <= b then a else b
  }

  function Max(a: int, b: int): int
  {
    if a <= b then b else a
  }

  /** `request.args.get('page', 1, type=int)`: an absent page means page 1. */
  function RequestedPage(arg: Option<int>): (page: int)
    ensures arg.None? ==> page == 1
    ensures arg.Some? ==> page == arg.value
  {
    match arg
    case None => 1
    case Some(p) => p
  }

  /** Pages are numbered from 1; the service is only modelled for such pages. */
  predicate PageArgOk(arg: Option<int>)
  {
    RequestedPage(arg) >= 1
  }

  /** Without a page argument the first ten rows of the listing are served. */
  lemma DefaultPageIsFirst<T>(items: seq<T>)
    ensures Paginate(items, RequestedPage(None)) == items[..Min(QuestionsPerPage, |items|)]
  {
  }

  /** Index of the first row that belongs on `page`. */
  function PageStart(page: int): int
  {
    (page - 1) * QuestionsPerPage
  }

  /** The slice `items[start:end]` with Python's clipping to the length. */
  function Paginate<T>(items: seq<T>, page: int): (r: seq<T>)
    requires page >= 1
    ensures |r| <= QuestionsPerPage
    ensures |r| == Min(QuestionsPerPage, Max(0, |items| - PageStart(page)))
    ensures r == [] <==> |items| <= PageStart(page)
    ensures forall k :: 0 <= k < |r| ==> r[k] == items[PageStart(page) + k]
  {
    var start := PageStart(page);
    var end := start + QuestionsPerPage;
    items[Min(start, |items|)..Min(end, |items|)]
  }

  /** Every row of a listing sits on page `i / 10 + 1`, at offset `i % 10`. */
  lemma ItemOnItsPage<T>(items: seq<T>, i: int)
    requires 0 <= i < |items|
    ensures i / QuestionsPerPage + 1 >= 1
    ensures var page := Paginate(items, i / QuestionsPerPage + 1);
            i % QuestionsPerPage < |page| && page[i % QuestionsPerPage] == items[i]
  {
    assert PageStart(i / QuestionsPerPage + 1) + i % QuestionsPerPage == i;
  }

  /** Whatever is on a page is a row of the listing. */
  lemma PageRowsFromListing<T>(items: seq<T>, page: int, x: T)
    requires page >= 1
    requires x in Paginate(items, page)
    ensures x in items
  {
    var r := Paginate(items, page);
    var k :| 0 <= k < |r| && r[k] == x;
    assert items[PageStart(page) + k] == x;
  }

  /** Two different pages of a listing without repeated rows share no row. */
  lemma PagesDisjoint<T>(items: seq<T>, p: int, q: int, x: T)
    requires p >= 1 && q >= 1 && p != q
    requires forall i, j :: 0 <= i < j < |items| ==> items[i] != items[j]
    requires x in Paginate(items, p)
    ensures x !in Paginate(items, q)
  {
  }

  /** Pages 1 to `k`, concatenated in order. */
  function FirstPages<T>(items: seq<T>, k: nat): seq<T>
  {
    if k == 0 then [] else FirstPages(items, k - 1) + Paginate(items, k)
  }

  /** Reading pages 1 to `k` in order yields exactly the first `10 k` rows. */
  lemma {:induction false} FirstPagesArePrefix<T>(items: seq<T>, k: nat)
    ensures FirstPages(items, k) == items[..Min(k * QuestionsPerPage, |items|)]
  {
    if k > 0 {
      FirstPagesArePrefix(items, k - 1);
      var a := Min((k - 1) * QuestionsPerPage, |items|);
      var b := Min(k * QuestionsPerPage, |items|);
      var page := Paginate(items, k);
      assert page == items[a..b];
      assert items[..a] + items[a..b] == items[..b];
    }
  }
}

=== FILE: query.dfy ===
/** The parts of the store's query interface the service relies on:
    `order_by(Question.id)`, `filter(...)` and `one_or_none()` lookups by id. */
module Query {
  import opened Wrappers
  import opened Records

  /** Ascending by id; ties cannot occur in a valid store. */
  predicate SortedById(qs: seq<Question>)
  {
    forall i, j :: 0 <= i < j < |qs| ==> qs[i].id <= qs[j].id
  }

  /** Places `q` in front of the first row whose id is not smaller. */
  function Insert(q: Question, qs: seq<Question>): (r: seq<Question>)
    requires SortedById(qs)
    ensures SortedById(r)
    ensures multiset(r) == multiset(qs) + multiset{q}
  {
    if |qs| == 0 then [q]
    else if q.id <= qs[0].id then [q] + qs
    else
      var rest := Insert(q, qs[1..]);
      assert qs == [qs[0]] + qs[1..];
      BoundCarries(qs[0].id, qs[1..], q, rest);
      [qs[0]] + rest
  }

  /** A lower bound on the ids of `qs` and of `q` bounds every row of a permutation of both. */
  lemma BoundCarries(lo: int, qs: seq<Question>, q: Question, r: seq<Question>)
    requires multiset(r) == multiset(qs) + multiset{q}
    requires forall x :: x in qs ==> lo <= x.id
    requires lo <= q.id
    ensures forall x :: x in r ==> lo <= x.id
  {
    forall x | x in r
      ensures lo <= x.id
    {
      assert x in multiset(r);
    }
  }

  /** `order_by(Question.id)`: the same rows, ascending by id. */
  function SortById(qs: seq<Question>): (r: seq<Question>)
    ensures SortedById(r)
    ensures multiset(r) == multiset(qs)
    ensures |r| == |qs|
  {
    if |qs| == 0 then []
    else
      var init := qs[..|qs| - 1];
      assert qs == init + [qs[|qs| - 1]];
      assert multiset(qs) == multiset(init) + multiset{qs[|qs| - 1]};
      Insert(qs[|qs| - 1], SortById(init))
  }

  /** `filter(...)`: the rows that satisfy `keep`, each as often as in the table. */
  function Filter(s: seq<Question>, keep: Question -> bool): (r: seq<Question>)
    ensures forall x :: x in r <==> x in s && keep(x)
    ensures forall x :: multiset(r)[x] == if keep(x) then multiset(s)[x] else 0
    ensures |r| <= |s|
  {
    if |s| == 0 then []
    else
      assert s == [s[0]] + s[1..];
      if keep(s[0]) then [s[0]] + Filter(s[1..], keep)
      else Filter(s[1..], keep)
  }

  /** Filtering keeps the table order: filtering two consecutive stretches of rows and
      joining the results is filtering the joined stretches. */
  lemma {:induction false} FilterKeepsOrder(a: seq<Question>, b: seq<Question>, keep: Question -> bool)
    ensures Filter(a + b, keep) == Filter(a, keep) + Filter(b, keep)
  {
    if |a| > 0 {
      var ab := a + b;
      assert ab[0] == a[0];
      assert ab[1..] == a[1..] + b;
      FilterKeepsOrder(a[1..], b, keep);
      if keep(a[0]) {
        assert Filter(ab, keep) == [a[0]] + Filter(a[1..] + b, keep);
        assert Filter(a, keep) == [a[0]] + Filter(a[1..], keep);
      } else {
        assert Filter(ab, keep) == Filter(a[1..] + b, keep);
        assert Filter(a, keep) == Filter(a[1..], keep);
      }
    } else {
      assert a + b == b;
    }
  }

  /** A row with the largest id lands at the end of an ordered listing. */
  lemma {:induction false} InsertLargest(q: Question, qs: seq<Question>)
    requires SortedById(qs)
    requires forall x :: x in qs ==> x.id < q.id
    ensures Insert(q, qs) == qs + [q]
  {
    if |qs| > 0 {
      assert qs[0] in qs;
      InsertLargest(q, qs[1..]);
      assert qs == [qs[0]] + qs[1..];
    }
  }

  /** Appending a row whose id exceeds every other id appends it to the ordering. */
  lemma AppendLargestSorted(qs: seq<Question>, q: Question)
    requires forall x :: x in qs ==> x.id < q.id
    ensures SortById(qs + [q]) == SortById(qs) + [q]
  {
    var s := qs + [q];
    assert s[..|s| - 1] == qs;
    forall x | x in SortById(qs)
      ensures x.id < q.id
    {
      assert x in multiset(SortById(qs));
    }
    InsertLargest(q, SortById(qs));
  }

  /** Filtering an ordered listing keeps it ordered (a filtered ordered query). */
  lemma {:induction false} FilterKeepsSorted(qs: seq<Question>, keep: Question -> bool)
    requires SortedById(qs)
    ensures SortedById(Filter(qs, keep))
  {
    if |qs| > 0 {
      FilterKeepsSorted(qs[1..], keep);
      var rest := Filter(qs[1..], keep);
      forall x | x in rest
        ensures qs[0].id <= x.id
      {
        var k :| 0 <= k < |qs[1..]| && qs[1..][k] == x;
        assert qs[k + 1] == x;
      }
    }
  }

  /** `filter(Question.id == id).one_or_none()`, as the position of the row. */
  function FindQuestion(qs: seq<Question>, id: int): (r: Option<nat>)
    ensures r.None? <==> id !in QuestionIds(qs)
    ensures r.Some? ==> r.value < |qs| && qs[r.value].id == id
  {
    if |qs| == 0 then None
    else if qs[0].id == id then Some(0)
    else
      match FindQuestion(qs[1..], id)
      case None =>
        assert forall q :: q in qs ==> q == qs[0] || q in qs[1..];
        None
      case Some(k) => Some(k + 1)
  }

  /** `filter(Category.id == id).one_or_none()`. */
  function FindCategory(cs: seq<Category>, id: int): (r: Option<Category>)
    ensures r.None? <==> id !in CategoryIds(cs)
    ensures r.Some? ==> r.value in cs && r.value.id == id
  {
    if |cs| == 0 then None
    else if cs[0].id == id then Some(cs[0])
    else
      assert forall c :: c in cs ==> c == cs[0] || c in cs[1..];
      FindCategory(cs[1..], id)
  }
}

=== FILE: quiz.dfy ===
/** Quiz next-question selection (`get_quiz_questions`). The store's random
    ordering (`order_by(func.random())`) is an input: any permutation of the rows. */
module Quiz {
  import opened Wrappers
  import opened Records
  import opened Query

  /** The quiz category id that stands for "all categories". */
  const AllCategories: int := 0

  predicate IsPermutation(shuffled: seq<Question>, qs: seq<Question>)
  {
    multiset(shuffled) == multiset(qs)
  }

  /** The rows the quiz draws from, in the shuffled order. */
  function Candidates(shuffled: seq<Question>, quizCategory: int): (r: seq<Question>)
    ensures forall q :: q in r <==> q in shuffled && (quizCategory == AllCategories || q.category == quizCategory)
    ensures quizCategory == AllCategories ==> r == shuffled
  {
    if quizCategory == AllCategories then shuffled
    else Filter(shuffled, (q: Question) => q.category == quizCategory)
  }

  /** Position `i` holds a not-yet-asked row and every row after it was asked before. */
  predicate LastUnseenAt(cands: seq<Question>, previous: seq<int>, i: int)
  {
    && 0 <= i < |cands|
    && cands[i].id !in previous
    && forall j :: i < j < |cands| ==> cands[j].id in previous
  }

  /** Reference definition of the scan's outcome: the last row whose id was not asked before. */
  function LastUnseen(cands: seq<Question>, previous: seq<int>): (r: Option<Question>)
    ensures r.None? <==> forall q :: q in cands ==> q.id in previous
    ensures r.Some? ==> exists i :: LastUnseenAt(cands, previous, i) && cands[i] == r.value
    decreases |cands|
  {
    if |cands| == 0 then None
    else
      var n := |cands| - 1;
      var init := cands[..n];
      assert cands == init + [cands[n]];
      if cands[n].id !in previous then
        assert LastUnseenAt(cands, previous, n);
        Some(cands[n])
      else
        var r := LastUnseen(init, previous);
        if r.Some? then
          var i :| LastUnseenAt(init, previous, i) && init[i] == r.value;
          assert LastUnseenAt(cands, previous, i);
          r
        else r
  }

  /** The loops of lines 231-235 and 244-248: every row not asked before overwrites the choice, so the
      last such row wins. */
  method ScanForUnseen(cands: seq<Question>, previous: seq<int>) returns (current: Option<Question>)
    ensures current == LastUnseen(cands, previous)
    ensures current.None? <==> forall q :: q in cands ==> q.id in previous
    ensures current.Some? ==> current.value in cands && current.value.id !in previous
  {
    current := None;
    for i := 0 to |cands|
      invariant current == LastUnseen(cands[..i], previous)
    {
      assert cands[..i + 1][..i] == cands[..i];
      if cands[i].id in previous {
      } else {
        current := Some(cands[i]);
      }
    }
    assert cands[..|cands|] == cands;
  }

  /** The selection made by one quiz request, given the shuffled rows. */
  function NextQuestion(shuffled: seq<Question>, quizCategory: int, previous: seq<int>): (r: Option<Question>)
    ensures r.None? || r.value in Candidates(shuffled, quizCategory)
    ensures |previous| == 0 ==> (r.None? <==> |Candidates(shuffled, quizCategory)| == 0)
    ensures |previous| == 0 && r.Some? ==> r.value == Candidates(shuffled, quizCategory)[0]
    ensures |previous| > 0 ==> (r.None? <==> forall q :: q in Candidates(shuffled, quizCategory) ==> q.id in previous)
    ensures |previous| > 0 && r.Some? ==> r.value.id !in previous
  {
    var cands := Candidates(shuffled, quizCategory);
    if |previous| == 0 then
      if |cands| == 0 then None else Some(cands[0])
    else LastUnseen(cands, previous)
  }

  /** The branches of lines 222-248 as written: the first shuffled candidate when nothing
      was asked before, the scan otherwise. */
  method SelectByScan(shuffled: seq<Question>, quizCategory: int, previous: seq<int>)
    returns (current: Option<Question>)
    ensures current == NextQuestion(shuffled, quizCategory, previous)
  {
    current := None;
    if quizCategory == AllCategories {
      if |previous| == 0 {
        if |shuffled| > 0 {
          current := Some(shuffled[0]);
        }
      } else {
        current := ScanForUnseen(shuffled, previous);
      }
    } else {
      var inCategory := Filter(shuffled, (q: Question) => q.category == quizCategory);
      if |previous| == 0 {
        if |inCategory| > 0 {
          current := Some(inCategory[0]);
        }
      } else {
        current := ScanForUnseen(inCategory, previous);
      }
    }
  }

  /** A question handed out by the quiz is a row of the store, of the requested category. */
  lemma QuizDrawsFromStore(qs: seq<Question>, shuffled: seq<Question>, quizCategory: int, previous: seq<int>)
    ensures var r := NextQuestion(shuffled, quizCategory, previous);
            IsPermutation(shuffled, qs) && r.Some? ==>
              r.value in qs && (quizCategory == AllCategories || r.value.category == quizCategory)
  {
    var r := NextQuestion(shuffled, quizCategory, previous);
    if IsPermutation(shuffled, qs) && r.Some? {
      assert r.value in multiset(shuffled);
    }
  }

  /** The first question of an "all categories" quiz exists exactly when the store has a question. */
  lemma FirstQuestionOfAnyCategory(qs: seq<Question>, shuffled: seq<Question>)
    requires IsPermutation(shuffled, qs)
    ensures NextQuestion(shuffled, AllCategories, []).Some? <==> |qs| > 0
  {
    assert |multiset(shuffled)| == |multiset(qs)|;
  }

  /** Once every question of the category has been asked, the quiz has nothing left to give. */
  lemma ExhaustedCategoryGivesNothing(qs: seq<Question>, shuffled: seq<Question>, quizCategory: int, previous: seq<int>)
    requires IsPermutation(shuffled, qs)
    requires forall q :: q in qs && (quizCategory == AllCategories || q.category == quizCategory) ==> q.id in previous
    ensures NextQuestion(shuffled, quizCategory, previous) == None
  {
    var cands := Candidates(shuffled, quizCategory);
    forall q | q in cands
      ensures q.id in previous
    {
      assert q in multiset(shuffled);
    }
    if |previous| == 0 && |cands| > 0 {
      assert cands[0] in cands;
    }
  }
}

=== FILE: records.dfy ===
/** Rows of the trivia database and the in-memory store that stands in for it. */
module Records {

  /** A row of the question table. `text` is the column the service calls `question`. */
  datatype Question = Question(id: int, text: string, answer: string, category: int, difficulty: int)

  /** A row of the category table. `name` is the column the service calls `type`. */
  datatype Category = Category(id: int, name: string)

  /** Both tables in storage order, plus the id that the question table's serial
      column hands out next. */
  datatype Store = Store(questions: seq<Question>, categories: seq<Category>, nextId: int)

  function QuestionIds(qs: seq<Question>): set<int>
  {
    set q | q in qs :: q.id
  }

  function CategoryIds(cs: seq<Category>): set<int>
  {
    set c | c in cs :: c.id
  }

  predicate DistinctQuestionIds(qs: seq<Question>)
  {
    forall i, j :: 0 <= i < j < |qs| ==> qs[i].id != qs[j].id
  }

  predicate DistinctCategoryIds(cs: seq<Category>)
  {
    forall i, j :: 0 <= i < j < |cs| ==> cs[i].id != cs[j].id
  }

  /** What the model assumes of the database: primary keys are unique (a guarantee of the
      database), and every stored id is below the serial column's next value. The latter holds
      when every stored id was drawn from the serial column, or when the column was advanced
      past the ids of rows seeded with explicit ids; the database does not enforce it. */
  predicate Valid(s: Store)
  {
    && DistinctQuestionIds(s.questions)
    && DistinctCategoryIds(s.categories)
    && forall q :: q in s.questions ==> q.id < s.nextId
  }
}

=== FILE: text.dfy ===
/** The case-insensitive substring test behind `Question.question.ilike('%term%')`,
    restricted to ASCII case folding. */
module Text {

  function LowerChar(c: char): char
  {
    if 'A' <= c <= 'Z' then (c as int + 32) as char else c
  }

  /** ASCII lower-casing, character by character. */
  function Lower(s: string): (r: string)
    ensures |r| == |s|
    ensures forall k :: 0 <= k < |s| ==> r[k] == LowerChar(s[k])
  {
    if |s| == 0 then "" else [LowerChar(s[0])] + Lower(s[1..])
  }

  /** `t` occurs in `s` starting at position `i`. */
  predicate OccursAt(t: string, s: string, i: int)
  {
    0 <= i && i + |t| <= |s| && s[i..i + |t|] == t
  }

  /** Executable substring test: `t` is a prefix of `s` or of one of its suffixes. */
  function Occurs(t: string, s: string): bool
    decreases |s|
  {
    |t| <= |s| && (s[..|t|] == t || (|s| > 0 && Occurs(t, s[1..])))
  }

  /** The executable test agrees with the positional definition. */
  lemma {:induction false} OccursIff(t: string, s: string)
    ensures Occurs(t, s) <==> exists i :: OccursAt(t, s, i)
  {
    if Occurs(t, s) {
      if s[..|t|] == t {
        assert OccursAt(t, s, 0);
      } else {
        OccursIff(t, s[1..]);
        var i :| OccursAt(t, s[1..], i);
        assert s[1..][i..i + |t|] == s[i + 1..i + 1 + |t|];
        assert OccursAt(t, s, i + 1);
      }
    }
    if i :| OccursAt(t, s, i) {
      if i == 0 {
        assert s[..|t|] == t;
      } else {
        assert s[1..][i - 1..i - 1 + |t|] == s[i..i + |t|];
        assert OccursAt(t, s[1..], i - 1);
        OccursIff(t, s[1..]);
      }
    }
  }

  /** `text ILIKE '%term%'` for a term without wildcard characters. */
  predicate ContainsIgnoringCase(text: string, term: string): (b: bool)
    ensures b ==> exists i :: OccursAt(Lower(term), Lower(text), i)
    ensures (exists i :: OccursAt(Lower(term), Lower(text), i)) ==> b
  {
    OccursIff(Lower(term), Lower(text));
    Occurs(Lower(term), Lower(text))
  }

  lemma LowerIdempotent(s: string)
    ensures Lower(Lower(s)) == Lower(s)
  {
    assert forall k :: 0 <= k < |s| ==> LowerChar(LowerChar(s[k])) == LowerChar(s[k]);
  }

  /** The match depends on neither the letter case of the text nor that of the term. */
  lemma MatchIgnoresCase(text: string, term: string)
    ensures ContainsIgnoringCase(Lower(text), Lower(term)) == ContainsIgnoringCase(text, term)
  {
    LowerIdempotent(text);
    LowerIdempotent(term);
  }

  /** An empty term (`'%%'`) matches every text. */
  lemma EmptyTermMatchesAll(text: string)
    ensures ContainsIgnoringCase(text, "")
  {
    assert Lower("") == "";
    assert OccursAt("", Lower(text), 0);
    OccursIff("", Lower(text));
  }
}

=== FILE: wrappers.dfy ===
/** Failure-carrying datatypes shared by the rest of the model. */
module Wrappers {

  /** A value that may be absent; stands for Python's `None`. */
  datatype Option<+T> = None | Some(value: T)

  /** What an endpoint answers: its JSON body, or the HTTP error it aborts with
      (404 for `NotFound`, 422 for `Unprocessable`). */
  datatype Response<+T> = Ok(body: T) | NotFound | Unprocessable
}
